=== FILE: README.md ===
# Agent-graph routing and answer aggregation of a RAG chat application, in Dafny

This project models the decision logic of a three-tier retrieval-augmented chat
application (a Streamlit frontend, a FastAPI backend gateway, and an "ai" service
running a langgraph multi-agent workflow). It covers these parts:

- **Agent-graph routing.** There are two graphs. The first is the `WorkflowService` graph: `search`, `tools`, `writer`. The second is the prototype graph of the ai service's entry script: `search`, `tools`, `outliner`, `writer`, then END. Each graph has a node enumeration, a pure `Next(node, state)` edge resolver, and the declared edge table. A generic fuel-bounded executor (`Graph.Execute`) runs a node, merges its output into the state with the `add_messages` reducer, and follows the resolved edge. It records the trace of visited nodes.
- **Per-node agent wrapping** (`AgentFactory`). It picks the default model and temperature from the state, binds tools only for the `search` agent, and places the system prompt before the history. It then normalises the model's answer into one AI message named `<agent_type>_agent`. The chat model, the prompt templates and the tool node are oracle functions.
- **Provider dispatch by model-name prefix** (`LlmFactory.GetModel`). `gpt…` selects OpenAI, `gemini…` selects Google, and any other name is `ValueError("Unknown model: …")`.
- **Backend answer aggregation** (`Backend.ChitChat`). A 500 status gives the fixed error envelope. Otherwise the answer keeps the contents of the `type == "ai"` messages, takes the last two, and joins them with a blank line.
- **Frontend session log and default-model lookup** (`Session`, `Sidebar`).

Python exceptions are values of `Errors.Error`, returned in `Wrappers.Result.Failure`:
- `ValueError` for an unknown model
- `IndexError` for `messages[-1]` on an empty list
- `AttributeError` for `tool_calls` on a non-AI message and for a missing session key
- `KeyError` for a missing dictionary key

Temperatures are `real`. Nothing numeric is claimed about them.

Model selection (`AgentFactory.Prepare`, `LlmFactory.GetModel`) reads only the model name. The request's `provider` is only forwarded (`Backend.GeneratePayload`).

## Model

| member | source | states |
|---|---|---|
| LlmFactory.GetModel | ai/src/factories/llm_factory.py:8-22 | succeeds exactly for names starting with `gpt` or `gemini`; `gpt` gives OpenAI with the OpenAI key, `gemini` gives Google with the Gemini key; name and temperature reach the client unchanged, temperature 0.5 when omitted; any other name fails with `ValueError("Unknown model: <name>")` |
| LlmFactory.PrefixesDisjoint | ai/src/factories/llm_factory.py:9-15 | no name starts with both `gpt` and `gemini`, so at most one branch applies |
| LlmFactory.StartsWithMeansAgreement | ai/src/factories/llm_factory.py:9-15 | the prefix test used for dispatch is exactly character-by-character agreement on the prefix |
| AgentFactory.Prepare | ai/src/factories/agent_factory.py:12-27 | the model is the state's `model` or `gpt-4o-mini`, the temperature the state's or 0.5; the client is the one `get_model` returns for that name and temperature, so a `gpt` name gets OpenAI with the OpenAI key and any other known name Google with the Gemini key; tools are bound iff the agent type is `search`; the prompt is the agent's own template then the full history; fails exactly when the model name is unknown |
| AgentFactory.RenderPrompt | ai/src/factories/agent_factory.py:15-18 | the prompt holds the system message first and then every history message, in order |
| AgentFactory.InvocationShape | ai/src/factories/agent_factory.py:13-27 | the rendered prompt is `[system(template(agent_type))] + messages`; `search` gets exactly the factory's tools, every other type none |
| AgentFactory.FallbackModelResolves | ai/src/factories/agent_factory.py:21-25 | a state without `model` always obtains a model, from OpenAI |
| AgentFactory.Normalize | ai/src/factories/agent_factory.py:31-35 | the result is always an AI message named `<agent_type>_agent` with the same content; an AI answer keeps its tool calls, anything else is rewrapped without tool calls |
| AgentFactory.NormalizeOnlyRenames | ai/src/factories/agent_factory.py:32-34 | an AI answer comes back identical except for its name |
| AgentFactory.RunNode | ai/src/factories/agent_factory.py:20-35 | a successful node returns exactly one AI message, named after the agent, carrying the model's content and, when the model answered with an AI message, its tool calls (none otherwise); among the errors the modelled code raises, it fails only as model selection fails |
| Messages.WantsTools | ai/src/services/workflow_service.py:36-39 | true iff the last message's tool calls are non-empty; `IndexError` on an empty history, `AttributeError` on a non-AI last message |
| Messages.Merge | ai/src/app.py:16-17 | the reducer keeps the history as a prefix and appends the node's messages after it; other keys are overwritten only when the node returns them |
| Messages.LastMessage | ai/src/services/workflow_service.py:36-37 | `messages[-1]` is the last message and raises `IndexError` on an empty history |
| Messages.ToolCallsOf | ai/src/services/workflow_service.py:39 | only AI messages have `tool_calls`; others raise `AttributeError` |
| Graph.Execute | ai/src/app.py:75-93 | a run executes at most `fuel` nodes, starts at the given node, finishes only where the last node's edge is END, and never rewrites earlier messages |
| Workflow.ShouldSearch | ai/src/services/workflow_service.py:35-42 | `"tools"` iff the last message's tool calls are non-empty, otherwise `"writer"`, nothing else; errors only on an empty history or a non-AI last message |
| Workflow.RoutingReadsOnlyLastMessage | ai/src/services/workflow_service.py:36-39 | two states with the same last message route identically |
| Workflow.NameParseRoundTrip | ai/src/services/workflow_service.py:16-18 | every node's registered name resolves back to that node |
| Workflow.ExactlyDeclaredNodes | ai/src/services/workflow_service.py:15-18 | exactly the names `search`, `writer`, `tools` denote nodes |
| Workflow.Next | ai/src/services/workflow_service.py:21-33 | `search` follows the routing label, `tools` always goes to `search`, `writer` always ends; every successor lies on a declared edge and only `writer` ends |
| Workflow.Act | ai/src/services/workflow_service.py:15-18 | `search` and `writer` are the factory's agent nodes for those types; `tools` appends the tool node's messages |
| Workflow.Answer | ai/src/services/workflow_service.py:44-47 | the built graph starts at `search`, keeps the initial history as a prefix of the final one and leaves the model selection unchanged |
| Workflow.SearchRoutesOnModelToolCalls | ai/src/services/workflow_service.py:35-42 | after `search` runs, the graph goes to `tools` exactly when the search model's AI answer carried tool calls, and to `writer` otherwise |
| Workflow.TraceShape | ai/src/services/workflow_service.py:21-33 | every run, whatever the nodes do, follows the declared edges and alternates `search`/`tools`; `writer` can only be the last node |
| Workflow.FinishedRunShape | ai/src/services/workflow_service.py:22-33 | every finished run is `search (tools search)* writer` |
| Workflow.EdgeDiscipline | ai/src/services/workflow_service.py:25-33 | `tools` is always followed by `search`; `writer` is entered only from `search` |
| Workflow.OnlyModelErrors | ai/src/services/workflow_service.py:35-42 | when the search node adds one AI message, routing never fails; among the errors the modelled code raises, the only one left is the unknown-model error |
| Workflow.ActIsAgentLike | ai/src/factories/agent_factory.py:20-35 | the factory's agent nodes add one AI message; among the errors the modelled code raises, they fail only on an unknown model |
| Workflow.AnswerFailsOnlyOnUnknownModel | ai/src/factories/agent_factory.py:21-25 | among the errors the modelled code raises, the built graph fails only when the request names a model with no provider, never with the fallback model |
| Prototype.ShouldSearch | ai/src/app.py:54-61 | `"tools"` iff the last message has tool calls, otherwise `"outliner"` |
| Prototype.NameParseRoundTrip | ai/src/app.py:78-81 | every node's registered name resolves back to that node |
| Prototype.Next | ai/src/app.py:84-91 | `search` routes by label, `tools` goes to `search`, `outliner` to `writer`, `writer` to END; successors lie on declared edges |
| Prototype.AgentNode | ai/src/app.py:40-44 | the node output holds exactly one message |
| Prototype.AgentStep | ai/src/app.py:40-44 | merging an agent node appends exactly the agent's answer and leaves the iteration count alone |
| Prototype.EditorNode | ai/src/app.py:46-52 | the editor adds its one answer; a state without `no_of_iterations` raises `KeyError` |
| Prototype.EditorStep | ai/src/app.py:46-52 | after merging, `no_of_iterations` is one more and exactly one message was added |
| Prototype.Act | ai/src/app.py:70-81 | each agent node adds its agent's answer; the tool node adds its messages; the node wrappers themselves raise nothing |
| Prototype.Answer | ai/src/app.py:75-93 | the compiled graph starts at `search`, keeps the initial history as a prefix of the final one and leaves the model selection unchanged |
| Prototype.TraceShape | ai/src/app.py:84-91 | every run follows the declared edges and alternates `search`/`tools`; `outliner` only among the last two nodes, `writer` only last |
| Prototype.FinishedRunShape | ai/src/app.py:84-91 | every finished run is `search (tools search)* outliner writer`, then END |
| Prototype.EdgeDiscipline | ai/src/app.py:89-91 | `outliner` is always followed by `writer` and `tools` by `search` |
| Prototype.NeverFails | ai/src/app.py:54-61 | when the search agent answers with AI messages, routing never raises, so no run fails with an error the modelled code raises |
| Backend.GeneratePayload | backend/src/app.py:35-41 | the forwarded body has exactly the keys question, provider, model, temperature |
| Backend.ParseQuery | ai/src/models/query.py:4-11 | a body is accepted exactly when it has the four fields with the right JSON kinds, whatever other keys it holds; they are read back unchanged |
| Backend.PayloadRoundTrip | backend/src/app.py:35-41 | the ai service reads back exactly the request the backend received |
| Backend.AiResponses | backend/src/app.py:49-51 | fails exactly when an AI message lacks `content`; yields no more entries than messages |
| Backend.AiResponsesAppend | backend/src/app.py:49-51 | the responses of `a + b` are those of `a` followed by those of `b`, so the original order is kept |
| Backend.AiResponsesSingle | backend/src/app.py:50 | a single message contributes its content iff its type is `ai` |
| Backend.AiResponsesFromAiMessages | backend/src/app.py:49-51 | every response is the content of some `ai` message of the input |
| Backend.LastTwo | backend/src/app.py:52 | the result is the last `min(2, n)` responses |
| Backend.LastTwoIsPlainSlice | backend/src/app.py:52 | both branches of the conditional agree with a plain `xs[-2:]` |
| Backend.Join | backend/src/app.py:53 | joining nothing gives `""`, joining one element gives that element |
| Backend.JoinTwo | backend/src/app.py:53 | two pieces are joined with the separator between them |
| Backend.JoinAppend | backend/src/app.py:53 | appending a piece to a non-empty list adds the separator and that piece at the end, so the join puts the separator between every two pieces |
| Backend.ChitChat | backend/src/app.py:42-53 | status 500 gives `{"message": "Currently we have internal issues :)", "detail": …}` with the body's detail and no answer; otherwise an answer, or a `KeyError` for a missing key |
| Backend.AnswerCases | backend/src/app.py:49-53 | no AI responses give `""`, one gives it alone, more give the last two separated by `"\n\n"` |
| Session.Initialize | frontend/src/managers/session_state_manager.py:7-12 | creates an empty log only when none exists, never touching an existing one or the other keys |
| Session.InitializeIdempotent | frontend/src/managers/session_state_manager.py:10-12 | initialising twice is initialising once |
| Session.InitializeKeepsLog | frontend/src/managers/session_state_manager.py:10-12 | initialising after messages were added never clears them |
| Session.GetMessages | frontend/src/managers/session_state_manager.py:15-17 | returns the stored log; raises when there is none |
| Session.AddMessage | frontend/src/managers/session_state_manager.py:19-21 | appends exactly one `{role, content}` entry at the end, earlier entries and other keys unchanged |
| Session.LogKeepsInsertionOrder | frontend/src/managers/session_state_manager.py:16-21 | after adding entries, the log is the old log followed by the entries in insertion order |
| Session.FreshLogInOrder | frontend/src/managers/session_state_manager.py:7-21 | on a fresh session, initialise then add returns exactly the added entries in order |
| Session.GetAiModel | frontend/src/managers/session_state_manager.py:23-25 | returns the stored model selection |
| Session.GetAiModelName | frontend/src/managers/session_state_manager.py:27-29 | returns the stored selection's `model` |
| Session.GetAiModelProvider | frontend/src/managers/session_state_manager.py:31-33 | returns the stored selection's `provider` |
| Session.GetTemperature | frontend/src/managers/session_state_manager.py:35-37 | returns the stored temperature unmodified |
| Session.AddAllKeepsSettings | frontend/src/managers/session_state_manager.py:19-37 | adding messages never changes model name, provider or temperature |
| Sidebar.IndexOf | frontend/src/components/sidebar.py:57 | `list.index`: the first position holding the value, absent exactly when the value is not in the list |
| Sidebar.DefaultModelIndex | frontend/src/components/sidebar.py:54-61 | the first index of `default_model[0]` when present, otherwise 0, and 0 when either lookup fails; the result is 0 or an index holding the default |
| Sidebar.DefaultModelIndexAgrees | frontend/src/components/sidebar.py:54-61 | the loop returns what `list.index` returns, and 0 where it raises |

## Left out

- Document loading, splitting and vector-store indexing (`VectorStoreService`). Chunking and incremental upsert happen inside library code that is not part of this model.
- The chat model, prompt rendering, tool execution (`ToolNode`, the retriever and web-search tools) and the prompt-template store. These are oracle functions in `AgentFactory.Env`, `Workflow.Env` and `Prototype.Env`.
- AgentFactory.RunNode: the chat model is a total function here, so a provider failure (bad key, network, a name the provider rejects) is not modelled; the contract covers the errors the modelled code raises itself.
- Workflow.OnlyModelErrors: the node actions it is applied to never raise anything but the unknown-model error; exceptions from the chat model or the tool node are not modelled.
- Workflow.ActIsAgentLike: the chat model and the tool node never raise here; only the unknown-model error of model selection is modelled.
- Workflow.AnswerFailsOnlyOnUnknownModel: the chat model and the tool node never raise here; the lemma covers the errors the modelled code raises itself.
- Prototype.Act: the agents and the tool node are total functions, so their exceptions are not modelled.
- Prototype.NeverFails: the agents and the tool node never raise here; the lemma covers only the routing errors of `should_search`.
- The agents of the prototype script come from an agent factory that is not part of this model. Their answers are oracles `State -> Message`.
- Graph.Execute: runs are bounded by `fuel` rather than by the graph library's recursion limit, which is library behaviour. Nothing is claimed about termination; the trace lemmas hold for every run.
- Messages.Merge: the reducer's replacement of a message that has the same id as an existing one is not modelled. Node outputs are appended.
- `editor_node` is defined in the script but never wired into its graph, so it is modelled on its own (`Prototype.EditorNode`).
- HTTP and async plumbing. This covers the backend's client lifespan, the `/generate` call itself, the frontend HTTP service and streaming. The backend handler is modelled from the decoded status code and JSON body onward.
- Backend.ChitChat: a reply that is not JSON, and `content` values that are not strings, are not modelled.
- Streamlit rendering and widgets, including the temperature slider bounds. Only `_get_default_model_index` of the sidebar is modelled.
- Session: the session map is modelled as the three keys the manager touches. A stored model selection is a record with `model` and `provider`, so a selection missing one of these keys is not modelled.
- Backend.ParseQuery: pydantic's coercions, such as a numeric string accepted for `temperature: float`, are not modelled. A field of the wrong JSON kind is rejected.
- Config loading and pydantic models. Their four request fields are reused as `Backend.ChatRequest`.
- The entry script's hard-coded demo question and printing loop.

=== FILE: agent_factory.dfy ===
/** Per-node agent wrapping (`AgentFactory.create_agent_node` and its inner
    `node`): choose the chat model from the state, bind tools for the search
    agent only, prepend the agent's system prompt, call the model, and
    normalise its answer into one AI message named after the agent. */
module AgentFactory {
  import opened Wrappers
  import opened Errors
  import opened Messages
  import LlmFactory

  /** The model used when the state has no `model` key. */
  const FallbackModel: string := "gpt-4o-mini"
  /** The temperature used when the state has no `temperature` key. */
  const FallbackTemperature: real := 0.5
  /** The only agent type whose model gets the tools bound. */
  const SearchAgent: string := "search"

  /** One call of the chat model: the client, the tools bound to it (if any)
      and the rendered prompt. */
  datatype Invocation = Invocation(chat: LlmFactory.ChatModel, boundTools: Option<seq<Tool>>, prompt: seq<Message>)

  /** Everything the node closes over. The prompt templates and the model call
      are oracles: the template store and the chat-model library are not part
      of this model. */
  datatype Env = Env(
    config: LlmFactory.Config,
    tools: seq<Tool>,
    template: string -> string,
    llm: Invocation -> Message)

  /** `f"{agent_type}_agent"`. */
  function AgentName(agentType: string): (r: string)
    ensures |r| == |agentType| + 6
    ensures r[..|agentType|] == agentType && r[|agentType|..] == "_agent"
  {
    agentType + "_agent"
  }

  /** The system message followed by the whole history (`MessagesPlaceholder`). */
  function RenderPrompt(systemMessage: string, history: seq<Message>): (p: seq<Message>)
    ensures |p| == |history| + 1
    ensures p[0] == System(systemMessage)
    ensures p[1..] == history
  {
    [System(systemMessage)] + history
  }

  /** Builds the model call a node makes for `state`; fails exactly when the
      chosen model name has no known provider prefix. */
  function Prepare(env: Env, agentType: string, state: State): (r: Result<Invocation, Error>)
    ensures r.Success? <==> LlmFactory.KnownModel(state.model.GetOr(FallbackModel))
    ensures r.Failure? ==> r.error == ValueError("Unknown model: " + state.model.GetOr(FallbackModel))
    ensures r.Success? && state.model.Some? ==> r.value.chat.model == state.model.value
    ensures r.Success? && state.model.None? ==> r.value.chat.model == "gpt-4o-mini"
    ensures r.Success? && state.temperature.Some? ==> r.value.chat.temperature == state.temperature.value
    ensures r.Success? && state.temperature.None? ==> r.value.chat.temperature == 0.5
    ensures r.Success? && LlmFactory.StartsWith(state.model.GetOr(FallbackModel), LlmFactory.OpenAiPrefix) ==>
              r.value.chat.provider == LlmFactory.OpenAI && r.value.chat.apiKey == env.config.openAiKey
    ensures r.Success? && !LlmFactory.StartsWith(state.model.GetOr(FallbackModel), LlmFactory.OpenAiPrefix) ==>
              r.value.chat.provider == LlmFactory.GoogleGenAI && r.value.chat.apiKey == env.config.geminiKey
    ensures r.Success? ==> r.value.chat == LlmFactory.GetModel(env.config, state.model.GetOr(FallbackModel),
                                                                Some(state.temperature.GetOr(FallbackTemperature))).value
    ensures r.Success? ==> (r.value.boundTools.Some? <==> agentType == "search")
    ensures r.Success? && r.value.boundTools.Some? ==> r.value.boundTools.value == env.tools
    ensures r.Success? ==> |r.value.prompt| == |state.messages| + 1
    ensures r.Success? ==> r.value.prompt[0] == System(env.template(agentType))
    ensures r.Success? ==> r.value.prompt[1..] == state.messages
  {
    var modelName := state.model.GetOr(FallbackModel);
    var temperature := state.temperature.GetOr(FallbackTemperature);
    match LlmFactory.GetModel(env.config, modelName, Some(temperature))
    case Failure(e) => Failure(e)
    case Success(chat) =>
      var bound := if agentType == SearchAgent then Some(env.tools) else None;
      Success(Invocation(chat, bound, RenderPrompt(env.template(agentType), state.messages)))
  }

  /** Turns whatever the model returned into one AI message named after the
      agent: an AI message only gets its name set, anything else is rewrapped
      with the same content and no tool calls. */
  function Normalize(agentType: string, result: Message): (m: Message)
    ensures m.AI?
    ensures m.name == Some(agentType + "_agent")
    ensures m.content == result.content
    ensures result.AI? ==> m.toolCalls == result.toolCalls
    ensures !result.AI? ==> m.toolCalls == []
  {
    if result.AI? then result.(name := Some(AgentName(agentType)))
    else AI(result.content, Some(AgentName(agentType)), [])
  }

  /** The node function `create_agent_node(agent_type)` returns, applied to a state. */
  function RunNode(env: Env, agentType: string, state: State): (r: Result<Delta, Error>)
    ensures r.Success? <==> Prepare(env, agentType, state).Success?
    ensures r.Failure? ==> r.error == Prepare(env, agentType, state).error
    ensures r.Success? ==> |r.value.messages| == 1 && r.value.iterations.None?
    ensures r.Success? ==> r.value.messages[0].AI?
    ensures r.Success? ==> r.value.messages[0].name == Some(agentType + "_agent")
    ensures r.Success? ==> r.value.messages[0].content == env.llm(Prepare(env, agentType, state).value).content
    ensures r.Success? && env.llm(Prepare(env, agentType, state).value).AI? ==>
              r.value.messages[0].toolCalls == env.llm(Prepare(env, agentType, state).value).toolCalls
    ensures r.Success? && !env.llm(Prepare(env, agentType, state).value).AI? ==>
              r.value.messages[0].toolCalls == []
  {
    match Prepare(env, agentType, state)
    case Failure(e) => Failure(e)
    case Success(invocation) => Success(Delta([Normalize(agentType, env.llm(invocation))], None))
  }

  /** The model sees the agent's own system prompt first, then the full
      history, and is bound to the tools only when it is the search agent. */
  lemma InvocationShape(env: Env, agentType: string, state: State)
    requires Prepare(env, agentType, state).Success?
    ensures var inv := Prepare(env, agentType, state).value;
      && inv.prompt == [System(env.template(agentType))] + state.messages
      && (agentType == "search" ==> inv.boundTools == Some(env.tools))
      && (agentType != "search" ==> inv.boundTools == None)
  {
  }

  /** With no `model` in the state the fallback model always resolves, to OpenAI. */
  lemma FallbackModelResolves(env: Env, agentType: string, state: State)
    requires state.model.None?
    ensures Prepare(env, agentType, state).Success?
    ensures Prepare(env, agentType, state).value.chat.provider == LlmFactory.OpenAI
  {
  }

  /** An AI result comes back unchanged except for its name. */
  lemma NormalizeOnlyRenames(agentType: string, content: string, name: Option<string>, calls: seq<ToolCall>)
    ensures Normalize(agentType, AI(content, name, calls)) == AI(content, Some(agentType + "_agent"), calls)
  {
  }
}

=== FILE: backend.dfy ===
/** The backend's `/chat` handler: it forwards the request to the ai
    service and post-processes the answer, keeping the contents of the last
    two AI messages, or returns a fixed envelope when the ai service reports
    an internal error. */
module Backend {
  import opened Wrappers
  import opened Errors

  /** The request body: question, provider, model and temperature. */
  datatype ChatRequest = ChatRequest(question: string, provider: string, model: string, temperature: real)

  /** The JSON values the forwarded body holds. */
  datatype Json = JString(text: string) | JNumber(number: real)

  /** The JSON body posted to the ai service's `/generate`. */
  function GeneratePayload(request: ChatRequest): (p: map<string, Json>)
    ensures p.Keys == {"question", "provider", "model", "temperature"}
  {
    map[
      "question" := JString(request.question),
      "provider" := JString(request.provider),
      "model" := JString(request.model),
      "temperature" := JNumber(request.temperature)]
  }

  /** How the ai service reads that body into its four-field query model;
      further keys are allowed and ignored. */
  function ParseQuery(body: map<string, Json>): (r: Option<ChatRequest>)
    ensures r.Some? ==> "question" in body && body["question"] == JString(r.value.question)
    ensures r.Some? ==> "provider" in body && body["provider"] == JString(r.value.provider)
    ensures r.Some? ==> "model" in body && body["model"] == JString(r.value.model)
    ensures r.Some? ==> "temperature" in body && body["temperature"] == JNumber(r.value.temperature)
    ensures && "question" in body && body["question"].JString?
            && "provider" in body && body["provider"].JString?
            && "model" in body && body["model"].JString?
            && "temperature" in body && body["temperature"].JNumber?
            ==> r.Some?
  {
    if && "question" in body && body["question"].JString?
       && "provider" in body && body["provider"].JString?
       && "model" in body && body["model"].JString?
       && "temperature" in body && body["temperature"].JNumber?
    then Some(ChatRequest(body["question"].text, body["provider"].text, body["model"].text,
                          body["temperature"].number))
    else None
  }

  /** The four fields reach the ai service unchanged. */
  lemma PayloadRoundTrip(request: ChatRequest)
    ensures ParseQuery(GeneratePayload(request)) == Some(request)
  {
  }

  /** A serialised message in the ai service's reply: its `type` and
      `content` keys, each possibly absent. */
  datatype WireMessage = WireMessage(kind: Option<string>, content: Option<string>)

  /** The decoded reply body: its `detail` and `messages` keys. */
  datatype ReplyBody = ReplyBody(detail: Option<string>, messages: Option<seq<WireMessage>>)

  /** What the handler returns. */
  datatype Reply =
    | Trouble(message: string, detail: string)
    | Answer(answer: string)

  const InternalIssues: string := "Currently we have internal issues :)"
  const Separator: string := "\n\n"

  /** `msg.get("type") == "ai"`. */
  predicate IsAi(m: WireMessage)
  {
    m.kind == Some("ai")
  }

  /** `[msg["content"] for msg in messages if msg.get("type") == "ai"]`;
      an AI message without `content` raises `KeyError`. */
  function AiResponses(messages: seq<WireMessage>): (r: Result<seq<string>, Error>)
    ensures r.Success? <==> forall i :: 0 <= i < |messages| && IsAi(messages[i]) ==> messages[i].content.Some?
    ensures r.Failure? ==> r.error == KeyError("content")
    ensures r.Success? ==> |r.value| <= |messages|
  {
    if |messages| == 0 then Success([])
    else
      match AiResponses(messages[..|messages| - 1])
      case Failure(e) => Failure(e)
      case Success(front) =>
        var m := messages[|messages| - 1];
        if !IsAi(m) then Success(front)
        else if m.content.None? then Failure(KeyError("content"))
        else Success(front + [m.content.value])
  }

  /** Filtering distributes over concatenation: the responses of `a + b` are
      those of `a` followed by those of `b`, so order is kept. */
  lemma {:induction false} AiResponsesAppend(a: seq<WireMessage>, b: seq<WireMessage>)
    requires AiResponses(a).Success? && AiResponses(b).Success?
    ensures AiResponses(a + b) == Success(AiResponses(a).value + AiResponses(b).value)
    decreases |b|
  {
    if |b| == 0 {
      assert a + b == a;
      assert AiResponses(b) == Success([]);
      assert AiResponses(a).value + [] == AiResponses(a).value;
    } else {
      var b' := b[..|b| - 1];
      assert (a + b)[..|a + b| - 1] == a + b';
      assert AiResponses(b').Success?;
      AiResponsesAppend(a, b');
      var m := b[|b| - 1];
      assert (a + b)[|a + b| - 1] == m;
      if IsAi(m) && m.content.Some? {
        var front := AiResponses(a).value + AiResponses(b').value;
        assert AiResponses(b).value == AiResponses(b').value + [m.content.value];
        assert front + [m.content.value] == AiResponses(a).value + (AiResponses(b').value + [m.content.value]);
      }
    }
  }

  /** A single message contributes its content exactly when it is an AI message. */
  lemma AiResponsesSingle(m: WireMessage)
    ensures !IsAi(m) ==> AiResponses([m]) == Success([])
    ensures IsAi(m) && m.content.Some? ==> AiResponses([m]) == Success([m.content.value])
  {
    assert [m][..0] == [];
    if IsAi(m) && m.content.Some? {
      assert [] + [m.content.value] == [m.content.value];
    }
  }

  /** Every response is the content of an AI message of the input. */
  lemma {:induction false} AiResponsesFromAiMessages(messages: seq<WireMessage>)
    requires AiResponses(messages).Success?
    ensures forall k :: 0 <= k < |AiResponses(messages).value| ==>
      exists i :: 0 <= i < |messages| && IsAi(messages[i]) && messages[i].content == Some(AiResponses(messages).value[k])
    decreases |messages|
  {
    if |messages| > 0 {
      var front := messages[..|messages| - 1];
      AiResponsesFromAiMessages(front);
      var r := AiResponses(messages).value;
      var fr := AiResponses(front).value;
      var last := messages[|messages| - 1];
      assert r == (if IsAi(last) then fr + [last.content.value] else fr);
      forall k | 0 <= k < |r|
        ensures exists i :: 0 <= i < |messages| && IsAi(messages[i]) && messages[i].content == Some(r[k])
      {
        if k < |fr| {
          assert r[k] == fr[k];
          var i :| 0 <= i < |front| && IsAi(front[i]) && front[i].content == Some(fr[k]);
          assert messages[i] == front[i];
        } else {
          assert messages[|messages| - 1].content == Some(r[k]);
        }
      }
    }
  }

  /** `xs[-2:] if len(xs) >= 2 else xs`. */
  function LastTwo(xs: seq<string>): (r: seq<string>)
    ensures |r| == if |xs| < 2 then |xs| else 2
    ensures r == xs[|xs| - |r|..]
  {
    if |xs| >= 2 then xs[|xs| - 2..] else xs
  }

  /** Python's `xs[start:]` for a possibly negative `start`: a negative
      start counts from the end and is clamped to the front. */
  function PySliceFrom(xs: seq<string>, start: int): (r: seq<string>)
    ensures |r| <= |xs|
  {
    var k := if start < 0 then (if start + |xs| < 0 then 0 else start + |xs|)
             else (if start > |xs| then |xs| else start);
    xs[k..]
  }

  /** Both branches of the conditional agree with a plain `xs[-2:]`. */
  lemma LastTwoIsPlainSlice(xs: seq<string>)
    ensures LastTwo(xs) == PySliceFrom(xs, -2)
  {
  }

  /** `separator.join(xs)`. */
  function Join(separator: string, xs: seq<string>): (r: string)
    ensures |xs| == 0 ==> r == ""
    ensures |xs| == 1 ==> r == xs[0]
  {
    if |xs| == 0 then "" else if |xs| == 1 then xs[0] else xs[0] + separator + Join(separator, xs[1..])
  }

  /** Joining two pieces puts the separator between them. */
  lemma JoinTwo(separator: string, a: string, b: string)
    ensures Join(separator, [a, b]) == a + separator + b
  {
  }

  /** Appending a piece adds the separator and the piece at the end, so
      `Join` is `str.join` for any number of pieces. */
  lemma {:induction false} JoinAppend(separator: string, xs: seq<string>, y: string)
    requires |xs| > 0
    ensures Join(separator, xs + [y]) == Join(separator, xs) + separator + y
    decreases |xs|
  {
    var ys := xs + [y];
    if |xs| == 1 {
      assert ys == [xs[0], y];
      JoinTwo(separator, xs[0], y);
    } else {
      assert ys[0] == xs[0] && ys[1..] == xs[1..] + [y];
      JoinAppend(separator, xs[1..], y);
      assert Join(separator, xs) == xs[0] + separator + Join(separator, xs[1..]);
      assert xs[0] + separator + (Join(separator, xs[1..]) + separator + y)
          == (xs[0] + separator + Join(separator, xs[1..])) + separator + y;
    }
  }

  /** `chit_chat` after the HTTP call: `status` is the ai service's status
      code and `body` its decoded JSON. */
  function ChitChat(status: int, body: ReplyBody): (r: Result<Reply, Error>)
    ensures status == 500 && body.detail.Some? ==> r == Success(Trouble(InternalIssues, body.detail.value))
    ensures status == 500 && body.detail.None? ==> r == Failure(KeyError("detail"))
    ensures status != 500 && body.messages.None? ==> r == Failure(KeyError("messages"))
    ensures status != 500 && body.messages.Some? ==>
              (r.Success? <==> AiResponses(body.messages.value).Success?)
    ensures status != 500 && r.Success? ==> r.value.Answer?
  {
    if status == 500 then
      match body.detail
      case None => Failure(KeyError("detail"))
      case Some(detail) => Success(Trouble(InternalIssues, detail))
    else
      match body.messages
      case None => Failure(KeyError("messages"))
      case Some(messages) =>
        match AiResponses(messages)
        case Failure(e) => Failure(e)
        case Success(responses) => Success(Answer(Join(Separator, LastTwo(responses))))
  }

  /** The answer by number of AI responses: none gives the empty string, one
      gives it alone, more give the last two separated by a blank line. */
  lemma AnswerCases(body: ReplyBody, status: int)
    requires status != 500 && body.messages.Some? && AiResponses(body.messages.value).Success?
    ensures var xs := AiResponses(body.messages.value).value;
      var answer := ChitChat(status, body).value.answer;
      && (|xs| == 0 ==> answer == "")
      && (|xs| == 1 ==> answer == xs[0])
      && (|xs| >= 2 ==> answer == xs[|xs| - 2] + "\n\n" + xs[|xs| - 1])
  {
  }
}

=== FILE: errors.dfy ===
/** The exceptions the modelled Python code can raise, as values. */
module Errors {

  datatype Error =
    /** `ValueError(message)`, raised explicitly by the code. */
    | ValueError(message: string)
    /** `messages[-1]` on an empty list. */
    | IndexError
    /** An attribute the object does not have (`tool_calls` on a non-AI message). */
    | AttributeError(attribute: string)
    /** `d[key]` on a dictionary without `key`. */
    | KeyError(key: string)
    /** A conditional edge returned a label that names no node of the graph. */
    | UnknownNode(node: string)
}

=== FILE: graph.dfy ===
/** A compiled state graph run turn by turn: run the current node, merge its
    output into the state, then ask the node's outgoing edge where to go.
    Graph execution has no iteration cap in the modelled code, so a run is
    bounded by `fuel`, one unit per node executed. */
module Graph {
  import opened Wrappers
  import opened Errors
  import opened Messages

  /** Where an edge leads: another node, or the end of the graph. */
  datatype Target<N> = To(node: N) | End

  datatype Status = Finished | OutOfFuel | Failed(error: Error)

  /** The nodes executed, in order; the state after the last one; how it stopped. */
  datatype Run<N> = Run(trace: seq<N>, final: State, status: Status)

  /** Executes the graph from `node`. `act` is what each node does to the
      state and `next` resolves each node's outgoing edge on the merged state. */
  function Execute<N>(fuel: nat, node: N, state: State,
                      act: (N, State) -> Result<Delta, Error>,
                      next: (N, State) -> Result<Target<N>, Error>): (r: Run<N>)
    ensures |r.trace| <= fuel
    ensures fuel > 0 ==> |r.trace| > 0 && r.trace[0] == node
    ensures r.status.OutOfFuel? ==> |r.trace| == fuel
    ensures r.status.Finished? ==>
              |r.trace| > 0 && next(r.trace[|r.trace| - 1], r.final) == Success(End)
    ensures |state.messages| <= |r.final.messages|
      && r.final.messages[..|state.messages|] == state.messages
    ensures r.final.model == state.model && r.final.temperature == state.temperature
    decreases fuel
  {
    if fuel == 0 then Run([], state, OutOfFuel)
    else
      match act(node, state)
      case Failure(e) => Run([node], state, Failed(e))
      case Success(delta) =>
        var merged := Merge(state, delta);
        match next(node, merged)
        case Failure(e) => Run([node], merged, Failed(e))
        case Success(End) => Run([node], merged, Finished)
        case Success(To(successor)) =>
          var rest := Execute(fuel - 1, successor, merged, act, next);
          Run([node] + rest.trace, rest.final, rest.status)
  }

  /** Every consecutive pair of the trace lies on an edge of `edge`. */
  ghost predicate FollowsEdges<N>(edge: (N, N) -> bool, t: seq<N>)
  {
    forall i :: 0 <= i < |t| - 1 ==> edge(t[i], t[i + 1])
  }

  /** Prepending a node along an edge to a trace that starts at the edge's
      target keeps it on the edges. */
  lemma ExtendFollowsEdges<N>(edge: (N, N) -> bool, node: N, successor: N, rest: seq<N>)
    requires edge(node, successor) && FollowsEdges(edge, rest)
    requires |rest| > 0 ==> rest[0] == successor
    ensures FollowsEdges(edge, [node] + rest)
  {
  }
}

=== FILE: llm_factory.dfy ===
/** Chat-model selection by model-name prefix (`LLMFactory.get_model`). */
module LlmFactory {
  import opened Wrappers
  import opened Errors

  datatype Provider = OpenAI | GoogleGenAI

  /** The API keys the factory is configured with. */
  datatype Config = Config(openAiKey: string, geminiKey: string)

  /** A configured chat-model client. */
  datatype ChatModel = ChatModel(provider: Provider, apiKey: string, model: string, temperature: real)

  /** The temperature used when the caller passes none. */
  const DefaultTemperature: real := 0.5

  const OpenAiPrefix: string := "gpt"
  const GeminiPrefix: string := "gemini"

  /** Python's `s.startswith(prefix)`. */
  predicate StartsWith(s: string, prefix: string)
  {
    |prefix| <= |s| && s[..|prefix|] == prefix
  }

  /** A character-by-character reading of "`s` begins with `prefix`". */
  ghost predicate AgreesOnPrefix(s: string, prefix: string)
  {
    |prefix| <= |s| && forall i :: 0 <= i < |prefix| ==> s[i] == prefix[i]
  }

  lemma StartsWithMeansAgreement(s: string, prefix: string)
    ensures StartsWith(s, prefix) <==> AgreesOnPrefix(s, prefix)
  {
  }

  /** No model name starts with both accepted prefixes: they differ in their
      second character. */
  lemma PrefixesDisjoint(s: string)
    ensures !(StartsWith(s, OpenAiPrefix) && StartsWith(s, GeminiPrefix))
  {
    if StartsWith(s, OpenAiPrefix) {
      assert s[1] == s[..|OpenAiPrefix|][1] == 'p';
    }
  }

  /** A model name one of the two providers accepts. */
  predicate KnownModel(modelName: string)
  {
    StartsWith(modelName, OpenAiPrefix) || StartsWith(modelName, GeminiPrefix)
  }

  /** `get_model(model_name, temperature=0.5)`; `temperature` is `None` when
      the caller omits the argument. */
  function GetModel(config: Config, modelName: string, temperature: Option<real>): (r: Result<ChatModel, Error>)
    ensures r.Success? <==> KnownModel(modelName)
    ensures r.Success? ==> (r.value.provider == OpenAI <==> StartsWith(modelName, OpenAiPrefix))
    ensures r.Success? ==> (r.value.provider == GoogleGenAI <==> StartsWith(modelName, GeminiPrefix))
    ensures r.Success? && r.value.provider == OpenAI ==> r.value.apiKey == config.openAiKey
    ensures r.Success? && r.value.provider == GoogleGenAI ==> r.value.apiKey == config.geminiKey
    ensures r.Success? ==> r.value.model == modelName
    ensures r.Success? && temperature.Some? ==> r.value.temperature == temperature.value
    ensures r.Success? && temperature.None? ==> r.value.temperature == 0.5
    ensures r.Failure? ==> r.error == ValueError("Unknown model: " + modelName)
  {
    PrefixesDisjoint(modelName);
    var t := temperature.GetOr(DefaultTemperature);
    if StartsWith(modelName, OpenAiPrefix) then
      Success(ChatModel(OpenAI, config.openAiKey, modelName, t))
    else if StartsWith(modelName, GeminiPrefix) then
      Success(ChatModel(GoogleGenAI, config.geminiKey, modelName, t))
    else
      Failure(ValueError("Unknown model: " + modelName))
  }
}

=== FILE: messages.dfy ===
/** Chat messages and the conversation state threaded through an agent graph,
    with the `add_messages` reducer that merges a node's output into it. */
module Messages {
  import opened Wrappers
  import opened Errors

  /** A tool-call request emitted by a model. */
  datatype ToolCall = ToolCall(name: string, args: string, id: string)

  /** A tool made available to a model; only its name matters here. */
  datatype Tool = Tool(name: string)

  /** The message kinds of the chat-model library. Only AI messages have
      `tool_calls`. Every kind has an optional `name` in the library; only
      the AI variant keeps it here, because nothing else in the model reads it. */
  datatype Message =
    | Human(content: string)
    | System(content: string)
    | AI(content: string, name: Option<string>, toolCalls: seq<ToolCall>)
    | ToolResult(content: string, toolCallId: string)

  /** The graph state: the message history plus the optional keys the nodes
      read (`model`, `temperature`, `no_of_iterations`). */
  datatype State = State(
    messages: seq<Message>,
    model: Option<string>,
    temperature: Option<real>,
    iterations: Option<int>)

  /** What one node returns: new messages, and possibly a new iteration count. */
  datatype Delta = Delta(messages: seq<Message>, iterations: Option<int>)

  /** `messages[-1]`. */
  function LastMessage(messages: seq<Message>): (r: Result<Message, Error>)
    ensures r.Success? <==> |messages| > 0
    ensures r.Success? ==> r.value == messages[|messages| - 1]
    ensures r.Failure? ==> r.error == IndexError
  {
    if |messages| == 0 then Failure(IndexError) else Success(messages[|messages| - 1])
  }

  /** `message.tool_calls`, an attribute only AI messages have. */
  function ToolCallsOf(m: Message): (r: Result<seq<ToolCall>, Error>)
    ensures r.Success? <==> m.AI?
    ensures r.Success? ==> r.value == m.toolCalls
    ensures r.Failure? ==> r.error == AttributeError("tool_calls")
  {
    if m.AI? then Success(m.toolCalls) else Failure(AttributeError("tool_calls"))
  }

  /** `if messages[-1].tool_calls:`, the condition both agent graphs route on:
      whether the last message asks for tools. */
  function WantsTools(messages: seq<Message>): (r: Result<bool, Error>)
    ensures r.Success? <==> |messages| > 0 && messages[|messages| - 1].AI?
    ensures r.Success? ==> (r.value <==> |messages[|messages| - 1].toolCalls| > 0)
    ensures |messages| == 0 ==> r == Failure(IndexError)
    ensures |messages| > 0 && !messages[|messages| - 1].AI? ==> r == Failure(AttributeError("tool_calls"))
  {
    match LastMessage(messages)
    case Failure(e) => Failure(e)
    case Success(last) =>
      match ToolCallsOf(last)
      case Failure(e) => Failure(e)
      case Success(calls) => Success(|calls| > 0)
  }

  /** Merges a node's output into the state: `add_messages` appends the new
      messages after the history; a plain key is overwritten when the node
      returns it and kept otherwise. */
  function Merge(state: State, delta: Delta): (r: State)
    ensures |r.messages| == |state.messages| + |delta.messages|
    ensures r.messages[..|state.messages|] == state.messages
    ensures r.messages[|state.messages|..] == delta.messages
    ensures r.model == state.model && r.temperature == state.temperature
    ensures r.iterations == (if delta.iterations.Some? then delta.iterations else state.iterations)
  {
    State(state.messages + delta.messages, state.model, state.temperature,
          if delta.iterations.Some? then delta.iterations else state.iterations)
  }
}

=== FILE: prototype.dfy ===
/** The prototype agent graph of the ai service's entry script: entry
    `search`; `search` goes to `tools` while the model asks for tools and to
    `outliner` otherwise; `tools` goes back to `search`; `outliner` goes to
    `writer` and `writer` to the end. Also its node wrappers `agent_node` and
    `editor_node`. */
module Prototype {
  import opened Wrappers
  import opened Errors
  import opened Messages
  import opened Graph

  datatype NodeName = Search | Tools | Outliner | Writer

  function Name(n: NodeName): string
  {
    match n
    case Search => "search"
    case Tools => "tools"
    case Outliner => "outliner"
    case Writer => "writer"
  }

  function Parse(tag: string): (r: Option<NodeName>)
    ensures r.Some? ==> Name(r.value) == tag
  {
    if tag == "search" then Some(Search)
    else if tag == "tools" then Some(Tools)
    else if tag == "outliner" then Some(Outliner)
    else if tag == "writer" then Some(Writer)
    else None
  }

  lemma NameParseRoundTrip(n: NodeName)
    ensures Parse(Name(n)) == Some(n)
  {
  }

  const Entry: NodeName := Search

  /** `should_search`: `"tools"` when the last message carries tool calls,
      `"outliner"` when it carries none. */
  function ShouldSearch(state: State): (r: Result<string, Error>)
    ensures r.Success? <==> |state.messages| > 0 && state.messages[|state.messages| - 1].AI?
    ensures r.Success? ==> r.value == "tools" || r.value == "outliner"
    ensures r.Success? ==> (r.value == "tools" <==> |state.messages[|state.messages| - 1].toolCalls| > 0)
    ensures |state.messages| == 0 ==> r == Failure(IndexError)
    ensures |state.messages| > 0 && !state.messages[|state.messages| - 1].AI? ==>
              r == Failure(AttributeError("tool_calls"))
  {
    match WantsTools(state.messages)
    case Failure(e) => Failure(e)
    case Success(wants) => if wants then Success("tools") else Success("outliner")
  }

  /** The declared edges. */
  predicate Edge(from: NodeName, to: NodeName)
  {
    || (from == Search && (to == Tools || to == Outliner))
    || (from == Tools && to == Search)
    || (from == Outliner && to == Writer)
  }

  function Next(node: NodeName, state: State): (r: Result<Target<NodeName>, Error>)
    ensures node == Search ==> (r.Success? <==> ShouldSearch(state).Success?)
    ensures node == Search && r.Success? ==> r.value == To(Parse(ShouldSearch(state).value).value)
    ensures node == Tools ==> r == Success(To(Search))
    ensures node == Outliner ==> r == Success(To(Writer))
    ensures node == Writer ==> r == Success(End)
    ensures r.Success? && r.value.To? ==> Edge(node, r.value.node)
    ensures r.Success? && r.value.End? ==> node == Writer
  {
    match node
    case Search =>
      (match ShouldSearch(state)
       case Failure(e) => Failure(e)
       case Success(tag) =>
         match Parse(tag)
         case Some(n) => Success(To(n))
         case None => Failure(UnknownNode(tag)))
    case Tools => Success(To(Search))
    case Outliner => Success(To(Writer))
    case Writer => Success(End)
  }

  /** `agent_node`: the agent's answer becomes the node's only message. */
  function AgentNode(state: State, agent: State -> Message): (d: Delta)
    ensures |d.messages| == 1 && d.iterations.None?
  {
    Delta([agent(state)], None)
  }

  /** Merging an agent node's output appends exactly the agent's answer. */
  lemma AgentStep(state: State, agent: State -> Message)
    ensures var after := Merge(state, AgentNode(state, agent));
      && after.messages == state.messages + [agent(state)]
      && after.iterations == state.iterations
  {
  }

  /** `editor_node`: the editor's answer plus the iteration count read from
      the state, increased by one; the state must hold `no_of_iterations`. */
  function EditorNode(state: State, editor: State -> Message): (r: Result<Delta, Error>)
    ensures r.Success? <==> state.iterations.Some?
    ensures r.Failure? ==> r.error == KeyError("no_of_iterations")
    ensures r.Success? ==> |r.value.messages| == 1 && r.value.messages[0] == editor(state)
  {
    match state.iterations
    case None => Failure(KeyError("no_of_iterations"))
    case Some(n) => Success(Delta([editor(state)], Some(n + 1)))
  }

  /** After merging, the editor has added one message and increased the
      iteration count by exactly one. */
  lemma EditorStep(state: State, editor: State -> Message)
    requires state.iterations.Some?
    ensures var after := Merge(state, EditorNode(state, editor).value);
      && after.iterations == Some(state.iterations.value + 1)
      && after.messages == state.messages + [editor(state)]
  {
  }

  /** The agents and the tool node the script wires in; all are oracles. */
  datatype Env = Env(
    search: State -> Message,
    outliner: State -> Message,
    writer: State -> Message,
    toolNode: State -> seq<Message>)

  function Act(env: Env, node: NodeName, state: State): (r: Result<Delta, Error>)
    ensures r.Success?
    ensures node == Tools ==> r.value.messages == env.toolNode(state)
    ensures node == Search ==> r.value.messages == [env.search(state)]
    ensures node == Outliner ==> r.value.messages == [env.outliner(state)]
    ensures node == Writer ==> r.value.messages == [env.writer(state)]
  {
    match node
    case Search => Success(AgentNode(state, env.search))
    case Tools => Success(Delta(env.toolNode(state), None))
    case Outliner => Success(AgentNode(state, env.outliner))
    case Writer => Success(AgentNode(state, env.writer))
  }

  function Answer(env: Env, fuel: nat, state: State): (r: Run<NodeName>)
    ensures fuel > 0 ==> |r.trace| > 0 && r.trace[0] == Search
    ensures |state.messages| <= |r.final.messages|
    ensures r.final.messages[..|state.messages|] == state.messages
    ensures r.final.model == state.model
  {
    Execute(fuel, Entry, state, (n, s) => Act(env, n, s), Next)
  }

  // ---------------------------------------------------------------------
  // Shape of traces

  function Expected(i: nat): NodeName
  {
    if i % 2 == 0 then Search else Tools
  }

  function Phase(n: NodeName): nat
  {
    if n == Search || n == Writer then 0 else 1
  }

  /** `search`/`tools` alternate; `outliner` can only be among the last two
      nodes and `writer` only the last. */
  ghost predicate ShapedFrom(t: seq<NodeName>, phase: nat)
  {
    forall i :: 0 <= i < |t| ==>
      && ((t[i] == Search || t[i] == Tools) ==> t[i] == Expected(i + phase))
      && (t[i] == Outliner ==> i + 2 >= |t|)
      && (t[i] == Writer ==> i == |t| - 1)
  }

  /** `search (tools search)* outliner writer`, then the end. */
  ghost predicate Completed(t: seq<NodeName>)
  {
    && |t| >= 3
    && t[|t| - 1] == Writer
    && t[|t| - 2] == Outliner
    && t[|t| - 3] == Search
    && forall i :: 0 <= i < |t| - 2 ==> t[i] == Expected(i)
  }

  lemma ExtendShape(node: NodeName, successor: NodeName, rest: seq<NodeName>)
    requires Edge(node, successor)
    requires ShapedFrom(rest, Phase(successor)) && FollowsEdges(Edge, rest)
    requires |rest| > 0 ==> rest[0] == successor
    ensures ShapedFrom([node] + rest, Phase(node)) && FollowsEdges(Edge, [node] + rest)
  {
    ExtendFollowsEdges(Edge, node, successor, rest);
  }

  /** Every run, whatever the agents answer, follows the declared edges and
      alternates `search`/`tools` before `outliner` and `writer`. */
  lemma {:induction false} TraceShape(fuel: nat, node: NodeName, state: State,
                                      act: (NodeName, State) -> Result<Delta, Error>)
    ensures var t := Execute(fuel, node, state, act, Next).trace;
      ShapedFrom(t, Phase(node)) && FollowsEdges(Edge, t)
    decreases fuel
  {
    if fuel > 0 {
      match act(node, state)
      case Failure(_) =>
      case Success(delta) =>
        var merged := Merge(state, delta);
        match Next(node, merged)
        case Failure(_) =>
        case Success(End) =>
        case Success(To(successor)) =>
          TraceShape(fuel - 1, successor, merged, act);
          ExtendShape(node, successor, Execute(fuel - 1, successor, merged, act, Next).trace);
    }
  }

  /** A run that finishes is `search (tools search)* outliner writer`. */
  lemma FinishedRunShape(fuel: nat, state: State, act: (NodeName, State) -> Result<Delta, Error>)
    requires Execute(fuel, Entry, state, act, Next).status.Finished?
    ensures Completed(Execute(fuel, Entry, state, act, Next).trace)
  {
    var r := Execute(fuel, Entry, state, act, Next);
    TraceShape(fuel, Entry, state, act);
    var t := r.trace;
    assert Next(t[|t| - 1], r.final) == Success(End);
    assert t[|t| - 1] == Writer;
    assert |t| >= 2;
    assert Edge(t[|t| - 2], t[|t| - 2 + 1]);
    assert t[|t| - 2] == Outliner;
    assert |t| >= 3;
    assert Edge(t[|t| - 3], t[|t| - 3 + 1]);
    forall i | 0 <= i < |t| - 2
      ensures t[i] == Expected(i)
    {
      assert t[i] != Outliner && t[i] != Writer;
    }
  }

  /** In every run `outliner` is followed only by `writer` and `tools` only
      by `search`. */
  lemma EdgeDiscipline(fuel: nat, state: State, act: (NodeName, State) -> Result<Delta, Error>)
    ensures var t := Execute(fuel, Entry, state, act, Next).trace;
      && (forall i :: 0 <= i < |t| - 1 && t[i] == Outliner ==> t[i + 1] == Writer)
      && (forall i :: 0 <= i < |t| - 1 && t[i] == Tools ==> t[i + 1] == Search)
  {
    TraceShape(fuel, Entry, state, act);
  }

  /** When the search agent always answers with an AI message, the script's
      graph never fails: every run finishes or runs out of fuel. */
  lemma {:induction false} NeverFails(env: Env, fuel: nat, node: NodeName, state: State)
    requires forall s :: env.search(s).AI?
    ensures !Execute(fuel, node, state, (n, s) => Act(env, n, s), Next).status.Failed?
    decreases fuel
  {
    if fuel > 0 {
      var delta := Act(env, node, state).value;
      var merged := Merge(state, delta);
      if node == Search {
        assert merged.messages[|merged.messages| - 1] == env.search(state);
      }
      match Next(node, merged)
      case Failure(_) =>
      case Success(End) =>
      case Success(To(successor)) =>
        NeverFails(env, fuel - 1, successor, merged);
    }
  }
}

=== FILE: session.dfy ===
/** The frontend's session-state manager over the keys it touches:
    `messages` (the chat log), `ai_model` and `temperature`. A key the session
    does not hold is `None`; reading it raises `AttributeError`. */
module Session {
  import opened Wrappers
  import opened Errors

  /** One chat-log entry, `{"role": role, "content": content}`. */
  datatype Entry = Entry(role: string, content: string)

  /** The selected model entry, with its `model` and `provider` keys. */
  datatype AiModel = AiModel(model: string, provider: string)

  datatype Session = Session(messages: Option<seq<Entry>>, aiModel: Option<AiModel>, temperature: Option<real>)

  /** `initialize` / `_initialize_messages`: creates an empty log only when
      there is none. */
  function Initialize(s: Session): (r: Session)
    ensures r.messages.Some?
    ensures s.messages.Some? ==> r == s
    ensures s.messages.None? ==> r.messages == Some([])
    ensures r.aiModel == s.aiModel && r.temperature == s.temperature
  {
    if s.messages.None? then s.(messages := Some([])) else s
  }

  lemma InitializeIdempotent(s: Session)
    ensures Initialize(Initialize(s)) == Initialize(s)
  {
  }

  /** `get_messages`. */
  function GetMessages(s: Session): (r: Result<seq<Entry>, Error>)
    ensures r.Success? <==> s.messages.Some?
    ensures r.Success? ==> r.value == s.messages.value
    ensures r.Failure? ==> r.error == AttributeError("messages")
  {
    match s.messages
    case None => Failure(AttributeError("messages"))
    case Some(log) => Success(log)
  }

  /** `add_message(role, content)`: appends one entry to the log. */
  function AddMessage(s: Session, role: string, content: string): (r: Result<Session, Error>)
    ensures r.Success? <==> s.messages.Some?
    ensures r.Failure? ==> r.error == AttributeError("messages")
    ensures r.Success? ==> r.value.messages.Some?
    ensures r.Success? ==> |r.value.messages.value| == |s.messages.value| + 1
    ensures r.Success? ==> r.value.messages.value[..|s.messages.value|] == s.messages.value
    ensures r.Success? ==> r.value.messages.value[|s.messages.value|] == Entry(role, content)
    ensures r.Success? ==> r.value.aiModel == s.aiModel && r.value.temperature == s.temperature
  {
    match s.messages
    case None => Failure(AttributeError("messages"))
    case Some(log) => Success(s.(messages := Some(log + [Entry(role, content)])))
  }

  /** Adds the entries one after another. */
  function AddAll(s: Session, entries: seq<Entry>): (r: Result<Session, Error>)
    decreases |entries|
  {
    if |entries| == 0 then Success(s)
    else
      match AddMessage(s, entries[0].role, entries[0].content)
      case Failure(e) => Failure(e)
      case Success(s') => AddAll(s', entries[1..])
  }

  /** The log returns entries in insertion order, after what was there. */
  lemma {:induction false} LogKeepsInsertionOrder(s: Session, entries: seq<Entry>)
    requires s.messages.Some?
    ensures AddAll(s, entries).Success?
    ensures GetMessages(AddAll(s, entries).value) == Success(s.messages.value + entries)
    decreases |entries|
  {
    if |entries| == 0 {
      assert s.messages.value + entries == s.messages.value;
    } else {
      var s' := AddMessage(s, entries[0].role, entries[0].content).value;
      LogKeepsInsertionOrder(s', entries[1..]);
      assert s'.messages.value == s.messages.value + [entries[0]];
      assert s.messages.value + [entries[0]] + entries[1..] == s.messages.value + entries;
    }
  }

  /** On a fresh session, initialising and then adding gives back exactly the
      added entries, in order. */
  lemma FreshLogInOrder(aiModel: Option<AiModel>, temperature: Option<real>, entries: seq<Entry>)
    ensures AddAll(Initialize(Session(None, aiModel, temperature)), entries).Success?
    ensures GetMessages(AddAll(Initialize(Session(None, aiModel, temperature)), entries).value) == Success(entries)
  {
    var s := Initialize(Session(None, aiModel, temperature));
    LogKeepsInsertionOrder(s, entries);
    assert [] + entries == entries;
  }

  /** Initialising never clears a log that exists. */
  lemma InitializeKeepsLog(s: Session, entries: seq<Entry>)
    requires s.messages.Some?
    ensures AddAll(s, entries).Success?
    ensures GetMessages(Initialize(AddAll(s, entries).value)) == Success(s.messages.value + entries)
  {
    LogKeepsInsertionOrder(s, entries);
  }

  /** `get_ai_model`. */
  function GetAiModel(s: Session): (r: Result<AiModel, Error>)
    ensures r.Success? <==> s.aiModel.Some?
    ensures r.Success? ==> r.value == s.aiModel.value
    ensures r.Failure? ==> r.error == AttributeError("ai_model")
  {
    match s.aiModel
    case None => Failure(AttributeError("ai_model"))
    case Some(m) => Success(m)
  }

  /** `get_ai_model_name`: the stored model's `model`. */
  function GetAiModelName(s: Session): (r: Result<string, Error>)
    ensures r.Success? <==> s.aiModel.Some?
    ensures r.Success? ==> r.value == s.aiModel.value.model
    ensures r.Failure? ==> r.error == AttributeError("ai_model")
  {
    match GetAiModel(s)
    case Failure(e) => Failure(e)
    case Success(m) => Success(m.model)
  }

  /** `get_ai_model_provider`: the stored model's `provider`. */
  function GetAiModelProvider(s: Session): (r: Result<string, Error>)
    ensures r.Success? <==> s.aiModel.Some?
    ensures r.Success? ==> r.value == s.aiModel.value.provider
    ensures r.Failure? ==> r.error == AttributeError("ai_model")
  {
    match GetAiModel(s)
    case Failure(e) => Failure(e)
    case Success(m) => Success(m.provider)
  }

  /** `get_temperature`: the stored value, unmodified. */
  function GetTemperature(s: Session): (r: Result<real, Error>)
    ensures r.Success? <==> s.temperature.Some?
    ensures r.Success? ==> r.value == s.temperature.value
    ensures r.Failure? ==> r.error == AttributeError("temperature")
  {
    match s.temperature
    case None => Failure(AttributeError("temperature"))
    case Some(t) => Success(t)
  }

  /** Adding messages leaves the model selection and temperature alone. */
  lemma {:induction false} AddAllKeepsSettings(s: Session, entries: seq<Entry>)
    requires AddAll(s, entries).Success?
    ensures GetAiModelName(AddAll(s, entries).value) == GetAiModelName(s)
    ensures GetAiModelProvider(AddAll(s, entries).value) == GetAiModelProvider(s)
    ensures GetTemperature(AddAll(s, entries).value) == GetTemperature(s)
    decreases |entries|
  {
    if |entries| > 0 {
      var s' := AddMessage(s, entries[0].role, entries[0].content).value;
      AddAllKeepsSettings(s', entries[1..]);
    }
  }
}

=== FILE: sidebar.dfy ===
/** The sidebar's choice of the model pre-selected in the model picker. */
module Sidebar {
  import opened Wrappers

  /** `xs.index(x)`: the first position holding `x`; `None` where Python
      raises `ValueError`. */
  function IndexOf<M(==)>(xs: seq<M>, x: M): (r: Option<nat>)
    ensures r.None? <==> x !in xs
    ensures r.Some? ==> r.value < |xs| && xs[r.value] == x
    ensures r.Some? ==> forall j :: 0 <= j < r.value ==> xs[j] != x
  {
    if |xs| == 0 then None
    else if xs[0] == x then Some(0)
    else
      match IndexOf(xs[1..], x)
      case None => None
      case Some(i) => Some(i + 1)
  }

  /** `_get_default_model_index`: the first position of `default_model[0]`
      in the available models; 0 when it is absent or when either lookup
      fails (no model list, no default, an empty default). */
  method DefaultModelIndex<M(==)>(available: Option<seq<M>>, defaultModel: Option<seq<M>>) returns (index: nat)
    ensures available.None? || defaultModel.None? || |defaultModel.value| == 0 ==> index == 0
    ensures available.Some? && defaultModel.Some? && |defaultModel.value| > 0 ==>
              var xs := available.value;
              var x := defaultModel.value[0];
              && (x in xs ==> index < |xs| && xs[index] == x && forall j :: 0 <= j < index ==> xs[j] != x)
              && (x !in xs ==> index == 0)
    ensures index == 0 || (available.Some? && defaultModel.Some? && |defaultModel.value| > 0
              && index < |available.value| && available.value[index] == defaultModel.value[0])
  {
    if available.None? || defaultModel.None? || |defaultModel.value| == 0 {
      return 0;
    }
    var xs := available.value;
    var x := defaultModel.value[0];
    var i := 0;
    while i < |xs| && xs[i] != x
      invariant 0 <= i <= |xs|
      invariant forall j :: 0 <= j < i ==> xs[j] != x
    {
      i := i + 1;
    }
    index := if i < |xs| then i else 0;
  }

  /** The loop finds what `list.index` finds, and 0 where it raises. */
  method DefaultModelIndexAgrees<M(==)>(xs: seq<M>, defaultModel: seq<M>) returns (index: nat)
    requires |defaultModel| > 0
    ensures index == IndexOf(xs, defaultModel[0]).GetOr(0)
  {
    index := DefaultModelIndex(Some(xs), Some(defaultModel));
    var r := IndexOf(xs, defaultModel[0]);
    if r.Some? {
      assert defaultModel[0] in xs;
    }
  }
}

=== FILE: workflow.dfy ===
/** The search/tools/writer agent graph `WorkflowService.build` declares:
    entry `search`; `search` goes to `tools` while the model asks for tools
    and to `writer` otherwise; `tools` always goes back to `search`; `writer`
    is the finish point. */
module Workflow {
  import opened Wrappers
  import opened Errors
  import opened Messages
  import opened Graph
  import AgentFactory
  import LlmFactory

  datatype NodeName = Search | Tools | Writer

  /** The name each node is registered under. */
  function Name(n: NodeName): string
  {
    match n
    case Search => "search"
    case Tools => "tools"
    case Writer => "writer"
  }

  /** The node a routing label names, if any. */
  function Parse(tag: string): (r: Option<NodeName>)
    ensures r.Some? ==> Name(r.value) == tag
  {
    if tag == "search" then Some(Search)
    else if tag == "tools" then Some(Tools)
    else if tag == "writer" then Some(Writer)
    else None
  }

  lemma NameParseRoundTrip(n: NodeName)
    ensures Parse(Name(n)) == Some(n)
  {
  }

  /** The node names registered by `_setup_nodes`, in order. */
  const Declared: seq<string> := ["search", "writer", "tools"]

  /** Exactly the three registered names denote nodes. */
  lemma ExactlyDeclaredNodes(tag: string)
    ensures Parse(tag).Some? <==> tag in Declared
  {
  }

  /** `set_entry_point("search")`. */
  const Entry: NodeName := Search

  /** `_should_search`: `"tools"` when the last message carries tool calls,
      `"writer"` when it carries none. The last message must exist and be an
      AI message, the only kind with a `tool_calls` attribute. */
  function ShouldSearch(state: State): (r: Result<string, Error>)
    ensures r.Success? <==> |state.messages| > 0 && state.messages[|state.messages| - 1].AI?
    ensures r.Success? ==> r.value == "tools" || r.value == "writer"
    ensures r.Success? ==> (r.value == "tools" <==> |state.messages[|state.messages| - 1].toolCalls| > 0)
    ensures |state.messages| == 0 ==> r == Failure(IndexError)
    ensures |state.messages| > 0 && !state.messages[|state.messages| - 1].AI? ==>
              r == Failure(AttributeError("tool_calls"))
  {
    match WantsTools(state.messages)
    case Failure(e) => Failure(e)
    case Success(wants) => if wants then Success("tools") else Success("writer")
  }

  /** Routing reads nothing but the last message. */
  lemma RoutingReadsOnlyLastMessage(s1: State, s2: State)
    requires |s1.messages| > 0 && |s2.messages| > 0
    requires s1.messages[|s1.messages| - 1] == s2.messages[|s2.messages| - 1]
    ensures ShouldSearch(s1) == ShouldSearch(s2)
  {
  }

  /** The edges the graph declares: the two outcomes of the conditional edge
      out of `search`, and the fixed edge from `tools` back to `search`. */
  predicate Edge(from: NodeName, to: NodeName)
  {
    (from == Search && (to == Tools || to == Writer)) || (from == Tools && to == Search)
  }

  /** Resolves a node's outgoing edge on the state after the node ran. */
  function Next(node: NodeName, state: State): (r: Result<Target<NodeName>, Error>)
    ensures node == Search ==> (r.Success? <==> ShouldSearch(state).Success?)
    ensures node == Search && r.Success? ==> r.value == To(Parse(ShouldSearch(state).value).value)
    ensures node == Tools ==> r == Success(To(Search))
    ensures node == Writer ==> r == Success(End)
    ensures r.Success? && r.value.To? ==> Edge(node, r.value.node)
    ensures r.Success? && r.value.End? ==> node == Writer
  {
    match node
    case Search =>
      (match ShouldSearch(state)
       case Failure(e) => Failure(e)
       case Success(tag) =>
         match Parse(tag)
         case Some(n) => Success(To(n))
         case None => Failure(UnknownNode(tag)))
    case Tools => Success(To(Search))
    case Writer => Success(End)
  }

  /** The collaborators of the built graph: the agent factory's environment
      and the prebuilt tool node, an oracle returning the tool messages. */
  datatype Env = Env(agents: AgentFactory.Env, toolNode: State -> seq<Message>)

  /** What each node does: `search` and `writer` are agent nodes, `tools`
      appends the tool node's messages. */
  function Act(env: Env, node: NodeName, state: State): (r: Result<Delta, Error>)
    ensures node == Tools ==> r == Success(Delta(env.toolNode(state), None))
    ensures node != Tools ==> r == AgentFactory.RunNode(env.agents, Name(node), state)
  {
    match node
    case Search => AgentFactory.RunNode(env.agents, "search", state)
    case Tools => Success(Delta(env.toolNode(state), None))
    case Writer => AgentFactory.RunNode(env.agents, "writer", state)
  }

  /** Runs the built graph from its entry point. */
  function Answer(env: Env, fuel: nat, state: State): (r: Run<NodeName>)
    ensures fuel > 0 ==> |r.trace| > 0 && r.trace[0] == Search
    ensures |state.messages| <= |r.final.messages|
    ensures r.final.messages[..|state.messages|] == state.messages
    ensures r.final.model == state.model
  {
    Execute(fuel, Entry, state, (n, s) => Act(env, n, s), Next)
  }

  /** The tool calls the search model asked for decide where the graph goes
      next: `tools` when there are any, `writer` otherwise. The wrapped
      answer of a non-AI result has none. */
  lemma SearchRoutesOnModelToolCalls(env: Env, state: State)
    requires AgentFactory.Prepare(env.agents, "search", state).Success?
    ensures var answer := env.agents.llm(AgentFactory.Prepare(env.agents, "search", state).value);
      var calls := if answer.AI? then answer.toolCalls else [];
      Next(Search, Merge(state, Act(env, Search, state).value)) == Success(To(if |calls| > 0 then Tools else Writer))
  {
  }

  // ---------------------------------------------------------------------
  // Shape of traces

  /** Outside the final `writer`, the trace alternates `search`, `tools`. */
  function Expected(i: nat): NodeName
  {
    if i % 2 == 0 then Search else Tools
  }

  function Phase(n: NodeName): nat
  {
    if n == Search then 0 else 1
  }

  ghost predicate ShapedFrom(t: seq<NodeName>, phase: nat)
  {
    forall i :: 0 <= i < |t| ==>
      (t[i] == Writer ==> i == |t| - 1 && (i + phase) % 2 == 1) &&
      (t[i] != Writer ==> t[i] == Expected(i + phase))
  }

  /** `search (tools search)* writer`. */
  ghost predicate Completed(t: seq<NodeName>)
  {
    && |t| >= 2
    && |t| % 2 == 0
    && t[|t| - 1] == Writer
    && forall i :: 0 <= i < |t| - 1 ==> t[i] == Expected(i)
  }

  /** Every run, finished or not and whatever the nodes do, follows the
      declared edges and alternates `search`/`tools` until `writer`, which can
      only come last. */
  lemma {:induction false} TraceShape(fuel: nat, node: NodeName, state: State,
                                      act: (NodeName, State) -> Result<Delta, Error>)
    ensures var t := Execute(fuel, node, state, act, Next).trace;
      ShapedFrom(t, Phase(node)) && FollowsEdges(Edge, t)
    decreases fuel
  {
    if fuel > 0 {
      match act(node, state)
      case Failure(_) =>
      case Success(delta) =>
        var merged := Merge(state, delta);
        match Next(node, merged)
        case Failure(_) =>
        case Success(End) =>
        case Success(To(successor)) =>
          TraceShape(fuel - 1, successor, merged, act);
          ExtendShape(node, successor, Execute(fuel - 1, successor, merged, act, Next).trace);
    }
  }

  /** Prepending a node along a declared edge keeps a trace well shaped. */
  lemma ExtendShape(node: NodeName, successor: NodeName, rest: seq<NodeName>)
    requires Edge(node, successor)
    requires ShapedFrom(rest, Phase(successor)) && FollowsEdges(Edge, rest)
    requires |rest| > 0 ==> rest[0] == successor
    ensures ShapedFrom([node] + rest, Phase(node)) && FollowsEdges(Edge, [node] + rest)
  {
    ExtendFollowsEdges(Edge, node, successor, rest);
  }

  /** A run that finishes is `search (tools search)* writer`: it starts at
      the entry, ends at the finish point, and loops through `tools` in between. */
  lemma FinishedRunShape(fuel: nat, state: State, act: (NodeName, State) -> Result<Delta, Error>)
    requires Execute(fuel, Entry, state, act, Next).status.Finished?
    ensures Completed(Execute(fuel, Entry, state, act, Next).trace)
  {
    var r := Execute(fuel, Entry, state, act, Next);
    TraceShape(fuel, Entry, state, act);
    var t := r.trace;
    assert Next(t[|t| - 1], r.final) == Success(End);
    assert t[|t| - 1] == Writer;
    forall i | 0 <= i < |t| - 1
      ensures t[i] == Expected(i)
    {
      assert t[i] != Writer;
    }
  }

  /** In every run `tools` is followed only by `search`, and `writer` is
      entered only from `search`. */
  lemma EdgeDiscipline(fuel: nat, state: State, act: (NodeName, State) -> Result<Delta, Error>)
    ensures var t := Execute(fuel, Entry, state, act, Next).trace;
      && (forall i :: 0 <= i < |t| - 1 && t[i] == Tools ==> t[i + 1] == Search)
      && (forall i :: 0 < i < |t| && t[i] == Writer ==> t[i - 1] == Search)
  {
    TraceShape(fuel, Entry, state, act);
    var t := Execute(fuel, Entry, state, act, Next).trace;
    forall i | 0 < i < |t| && t[i] == Writer
      ensures t[i - 1] == Search
    {
      assert Edge(t[(i - 1)], t[(i - 1) + 1]);
    }
  }

  // ---------------------------------------------------------------------
  // Failures of the built graph

  /** Node actions that behave like the factory's agents: the search node
      adds exactly one AI message, and a node fails only with the
      unknown-model error for the state's model. */
  ghost predicate AgentLike(act: (NodeName, State) -> Result<Delta, Error>)
  {
    && (forall s :: act(Search, s).Success? ==>
          |act(Search, s).value.messages| == 1 && act(Search, s).value.messages[0].AI?)
    && (forall n, s :: act(n, s).Failure? ==>
          && act(n, s).error == ValueError("Unknown model: " + s.model.GetOr(AgentFactory.FallbackModel))
          && !LlmFactory.KnownModel(s.model.GetOr(AgentFactory.FallbackModel)))
  }

  /** With agent-like nodes, routing never fails: the only failure of a run
      is the unknown-model error for the model the request chose. */
  lemma {:induction false} OnlyModelErrors(fuel: nat, node: NodeName, state: State,
                                           act: (NodeName, State) -> Result<Delta, Error>)
    requires AgentLike(act)
    ensures var r := Execute(fuel, node, state, act, Next);
      r.status.Failed? ==>
        && r.status.error == ValueError("Unknown model: " + state.model.GetOr(AgentFactory.FallbackModel))
        && !LlmFactory.KnownModel(state.model.GetOr(AgentFactory.FallbackModel))
    decreases fuel
  {
    if fuel > 0 {
      match act(node, state)
      case Failure(_) =>
      case Success(delta) =>
        var merged := Merge(state, delta);
        if node == Search {
          assert merged.messages[|merged.messages| - 1] == delta.messages[0];
        }
        match Next(node, merged)
        case Failure(_) =>
        case Success(End) =>
        case Success(To(successor)) =>
          OnlyModelErrors(fuel - 1, successor, merged, act);
    }
  }

  lemma ActIsAgentLike(env: Env)
    ensures AgentLike((n, s) => Act(env, n, s))
  {
  }

  /** The built graph fails only when the chosen model has no provider, and
      never when the request leaves the model to the fallback. */
  lemma AnswerFailsOnlyOnUnknownModel(env: Env, fuel: nat, state: State)
    ensures var r := Answer(env, fuel, state);
      r.status.Failed? ==>
        && r.status.error == ValueError("Unknown model: " + state.model.GetOr(AgentFactory.FallbackModel))
        && state.model.Some?
        && !LlmFactory.KnownModel(state.model.value)
  {
    ActIsAgentLike(env);
    OnlyModelErrors(fuel, Entry, state, (n, s) => Act(env, n, s));
    assert LlmFactory.StartsWith(AgentFactory.FallbackModel, LlmFactory.OpenAiPrefix);
  }
}

=== FILE: wrappers.dfy ===
/** Option and Result: absent values and the Python exceptions of the model,
    carried as data instead of being raised. */
module Wrappers {

  datatype Option<+T> = None | Some(value: T) {

    /** The value, or `default` when absent: Python's `dict.get(key, default)`. */
    function GetOr(default: T): (r: T)
      ensures Some? ==> r == value
      ensures None? ==> r == default
    {
      match this
      case Some(v) => v
      case None => default
    }
  }

  datatype Result<+T, +E> = Success(value: T) | Failure(error: E)
}
